=== FILE: README.md ===
# InkPersona editor and rewrite endpoint — a Dafny model

InkPersona is a Markdown writing tool. It has a React editor (`App`) and a
small FastAPI backend whose `/api/rewrite` endpoint polishes a passage of
text. This project models the parts of both that compute something:

- **`Text`** (`text.dfy`) holds the string operations the two sides use:
  - counting, `split` on one character and `join`, with both round trips proved;
  - trimming by a whitespace predicate;
  - ASCII lower-casing;
  - substring search;
  - `lastIndexOf`.
- **`Editor`** (`editor.dfy`) models the editor component:
  - the toolbar and slash-command tables;
  - the toolbar splice (`applyToolbar`), with its wrap / line-prefix / template precedence and its empty-selection fallback;
  - the snippet insertion that removes the `/` which opened the menu (`insertSnippet`);
  - the document statistics (`updateWordCount`);
  - the slash-menu filter;
  - the title of an imported file.

  The pure expressions are functions with lemmas. The handlers are methods of
  the class `EditorState`, which holds the text, the textarea selection, the
  title, the save status, the slash-menu state and the statistics.
- **`Rewrite`** (`rewrite.dfy`) models the endpoint's local rule-based
  rewrite as a method that runs the same steps in the same order:
  1. strip;
  2. collapse runs of spaces;
  3. add a final `。`;
  4. a loop over the six phrase replacements;
  5. append the note.

  It also models the choice between the OpenAI answer and the local
  fallback.

Two places where the code was followed over its own commentary:

- `backend/app/main.py:61` says the local rules also capitalise a leading
  English letter. The code does not, and neither does the model.
- `backend/app/main.py:79` writes `\\n` in an f-string, a formatted string literal that is not raw. The
  note therefore begins with a backslash, `n`, a backslash, `n`, not with two
  line breaks. `Rewrite.Note` states this.

## Model

| member | source | states |
|---|---|---|
| Text.Split | frontend/src/App.tsx:205 | `split` on one character yields one more piece than there are separators, and no piece holds the separator |
| Text.JoinSplit | frontend/src/App.tsx:316 | joining the pieces of a split with the same separator gives back the original text |
| Text.SplitJoin | frontend/src/App.tsx:316 | splitting a join of separator-free parts gives back exactly those parts |
| Text.Trim | frontend/src/App.tsx:204 | trimming yields the empty text exactly when every character is whitespace; otherwise the result starts and ends with non-whitespace; the result is the slice of the input that begins after the leading whitespace, and everything cut off on either side is whitespace |
| Text.ContainsAt | frontend/src/App.tsx:300 | `includes` holds exactly when the needle occurs at some position of the text (both directions) |
| Text.LowerIdempotent | frontend/src/App.tsx:300 | lower-casing twice is lower-casing once |
| Text.LastIndexOf | frontend/src/App.tsx:341 | the result is -1 exactly when the character is absent; otherwise the character is at that index and nowhere after it |
| Editor.FindTool | frontend/src/App.tsx:246 | a found tool is in the toolbar and has the key; an absent result means no toolbar entry has the key |
| Editor.ShortcutToolsExist | frontend/src/App.tsx:244-257 | the Ctrl+B, Ctrl+I and Ctrl+K lookups always find a tool: bold `**` wrap, italic `*` wrap, and the link template |
| Editor.ToolbarAlwaysInserts | frontend/src/App.tsx:50-61 | every toolbar entry inserts a non-empty replacement, whatever the selection |
| Editor.Splice | frontend/src/App.tsx:321 | the spliced text keeps the part before the selection, then holds the insert, then the part after the selection; the caret sits right after the insert |
| Editor.SelectedText | frontend/src/App.tsx:310 | a non-empty selection is used as it is; an empty one falls back to the tool's `insert` text |
| Editor.Replacement | frontend/src/App.tsx:311-319 | wrap has precedence over prefix, and prefix over template: a wrap encloses the selection; a prefix makes the lines those of the selection, each prefixed; a template replaces the selection; otherwise the selection is kept |
| Editor.PrefixLines | frontend/src/App.tsx:316 | for a prefix without a line break, splitting the result on line breaks gives the lines of the selection, each with the prefix in front |
| Editor.PrefixLinesLines | frontend/src/App.tsx:316 | for a prefix without a line break, the lines of the result are the lines of the selection, each prefixed, so the number of lines is unchanged |
| Editor.PrefixLinesByCharacters | frontend/src/App.tsx:316 | prefixing every line equals the prefix followed by the text with the prefix inserted after every line break |
| Editor.ToolbarEdit | frontend/src/App.tsx:308-327 | the new text is the text before the selection, the replacement, then the text after the selection; the caret is the selection start plus the replacement's length |
| Editor.TemplateIgnoresSelection | frontend/src/App.tsx:317-318 | a template tool overwrites the selection with the template, whatever was selected |
| Editor.JsSlice | frontend/src/App.tsx:310 | `slice` with indices clamped to the length: the ordinary slice when both are in range, the rest of the text from `from` when `to` runs past the end, empty when `from` is past the end or `to` falls before `from` |
| Editor.ShortcutEdit | frontend/src/App.tsx:235-279 | the Ctrl+B/I/K edit as written, computed on the text of the render that registered the listener with the live selection; when that text is still current and the selection in range, it is the toolbar edit |
| Editor.ShortcutDropsTypedText | frontend/src/App.tsx:235-279 | with the listener registered on the empty text, "abc" typed and Ctrl+B at caret 3, the result is the bold placeholder alone, where the toolbar edit of the current text gives "abc" followed by it |
| Editor.ShortcutLosesTyped | frontend/src/App.tsx:235-279 | for any text `v0` at registration and any non-empty typed text, a shortcut at the end of the text gives `v0` followed by the tool's placeholder replacement, where the toolbar edit of the current text keeps the typed text before it |
| Editor.SnippetStart | frontend/src/App.tsx:340-342 | the snippet starts at the last `/` before the caret, or at the caret when there is none |
| Editor.TypedSlashThenSnippet | frontend/src/App.tsx:336-344 | right after "/" is typed over a selection, the snippet starts at that "/" and the snippet edit gives the text around the former selection with the snippet in between, whatever slashes stood before it |
| Editor.SnippetEdit | frontend/src/App.tsx:336-350 | the text from that start to the selection end is replaced by the snippet; the caret follows the snippet |
| Editor.WordStartsLeadingSpace | frontend/src/App.tsx:204 | leading whitespace does not change the number of words |
| Editor.WordStartsTrailingSpace | frontend/src/App.tsx:204 | trailing whitespace does not change the number of words |
| Editor.SplitOnSpaceRunsSpaceFree | frontend/src/App.tsx:204 | no piece of `split(/\s+/)` holds whitespace |
| Editor.SplitOnSpaceRunsNonEmpty | frontend/src/App.tsx:204 | only the first and the last piece of `split(/\s+/)` can be empty, and the first is non-empty when the text starts with a non-space |
| Editor.SplitCountsWords | frontend/src/App.tsx:204 | splitting a trimmed non-empty text on whitespace runs gives one piece per word start |
| Editor.TrimmedWords | frontend/src/App.tsx:204 | the trim-then-split word count equals the number of word starts in the untrimmed text |
| Editor.WordCount | frontend/src/App.tsx:202-207 | chars is the length; words is the number of word starts; lines is the number of line breaks plus one |
| Editor.WordCountZero | frontend/src/App.tsx:204 | the word count is 0 exactly when the text is all whitespace |
| Editor.Matches | frontend/src/App.tsx:300 | a command matches exactly when the lower-cased filter occurs at some position of its lower-cased label (both directions) |
| Editor.FilterIgnoresCase | frontend/src/App.tsx:300 | a filter matches the same commands as its lower-cased form |
| Editor.KeepMatching | frontend/src/App.tsx:299-301 | the kept commands are exactly those whose lower-cased label contains the lower-cased filter, in their original order, each as often as in the input |
| Editor.FilterCommands | frontend/src/App.tsx:297-302 | the empty filter returns the full list; any filter keeps exactly the matching commands, in order and with their multiplicity, and drops every other |
| Editor.EmptyFilterKeepsAll | frontend/src/App.tsx:298 | every command matches the empty filter, so the early return agrees with filtering |
| Editor.StripExtension | frontend/src/App.tsx:362 | the title is a prefix of the file name; anything removed is `.md`, `.markdown` or `.txt` in some letter case; a name without such an ending is kept whole |
| Editor.StripExtensionOfImport | frontend/src/App.tsx:362 | `base` plus a recognised extension in any letter case gives the title `base` |
| Editor.EditorState.constructor | frontend/src/App.tsx:149-196 | the initial state: the given text, title 未命名文档, status 已保存, menu closed with an empty filter, zero statistics |
| Editor.EditorState.ApplyToolbar | frontend/src/App.tsx:304-330 | the text and caret become those of the toolbar edit of the current selection, and the status becomes 未保存更改; nothing else changes |
| Editor.EditorState.InsertSnippet | frontend/src/App.tsx:332-353 | the text and caret become those of the snippet edit, and the menu closes; nothing else changes |
| Editor.EditorState.FilteredSlashCommands | frontend/src/App.tsx:297-302 | the menu lists exactly the slash commands that match the current filter, and all of them when the filter is empty |
| Editor.EditorState.TypeSlash | frontend/src/App.tsx:609 | the "/" the handler does not prevent replaces the selection, with the caret right after it, and the text is stored; nothing else changes |
| Editor.EditorState.OpenSlashMenu | frontend/src/App.tsx:259-268 | a closed menu opens with an empty filter and lists every command; an open one keeps its filter; the document, title, status and statistics are untouched |
| Editor.EditorState.CloseSlashMenu | frontend/src/App.tsx:271-286 | the menu closes; nothing else changes |
| Editor.EditorState.LoadFile | frontend/src/App.tsx:360-363 | the file's text becomes the document, and the title is the file name without its extension |
| Editor.EditorState.AfterChange | frontend/src/App.tsx:210-222 | when storage succeeds, the statistics become those of the current text and the status returns to 已保存; when a write throws, neither changes |
| Rewrite.NewRequest | backend/app/main.py:26-28 | the request keeps the text; the instruction is the one sent or, when none is sent, the default instruction |
| Rewrite.UseOpenAI | backend/app/main.py:8-14 | the OpenAI path is enabled exactly when the API key is set to a non-empty value and the client was created without an exception |
| Rewrite.Strip | backend/app/main.py:60 | the result is empty exactly when the text is all Python whitespace; otherwise it starts and ends with non-whitespace; it is the slice after the leading whitespace and only whitespace is cut on either side |
| Rewrite.CollapseSpaces | backend/app/main.py:63 | the result has no two neighbouring spaces, is empty exactly when the input is, and starts with a space exactly when the input does |
| Rewrite.CollapseIsSqueeze | backend/app/main.py:63 | the collapse equals an independent definition that drops every space directly followed by another space, so each run of spaces keeps exactly one |
| Rewrite.CollapseFixedPoint | backend/app/main.py:63 | the collapse leaves a text unchanged exactly when it has no double space |
| Rewrite.CollapseIdempotent | backend/app/main.py:63 | collapsing twice is collapsing once |
| Rewrite.CollapseKeepsOtherCharacters | backend/app/main.py:63 | only spaces are affected: every other character keeps its order and number |
| Rewrite.EnsureTerminal | backend/app/main.py:64-65 | the empty text stays empty; a text already ending in one of 。！？.!? is unchanged; otherwise the result is the input followed by `。`; either way a non-empty result ends in one of them |
| Rewrite.ReplaceAll | backend/app/main.py:76 | a text without the key is returned unchanged |
| Rewrite.ReplaceAllFirstOccurrence | backend/app/main.py:76 | the replacement works left to right without overlap: the first occurrence is replaced, then the search resumes after it |
| Rewrite.ReplaceAllKeepsLast | backend/app/main.py:76 | a last character that is not in the key stays last |
| Rewrite.ReplaceAllNoDoubleSpace | backend/app/main.py:76 | a non-empty value without spaces creates no double space |
| Rewrite.ReplacesTable | backend/app/main.py:67-74 | keys are non-empty and hold no sentence punctuation; values are non-empty and hold no space |
| Rewrite.ReplaceEachKeepsLast | backend/app/main.py:75-76 | the sequence of replacements keeps a final character that no key contains |
| Rewrite.ReplaceEachNoDoubleSpace | backend/app/main.py:75-76 | the sequence of replacements creates no double space |
| Rewrite.ReplaceEachEmpty | backend/app/main.py:75-76 | the replacements leave the empty text empty |
| Rewrite.ApplyReplacements | backend/app/main.py:75-76 | the loop over the pairs, each replacing every occurrence of its key in the previous result, computes the replacements applied in order |
| Rewrite.LocalBody | backend/app/main.py:60-76 | the rewritten body is empty exactly when the stripped input is empty; otherwise it ends in sentence punctuation; it never holds a double space |
| Rewrite.Note | backend/app/main.py:79 | the note starts with a literal backslash-n twice, quotes the instruction verbatim at a fixed offset, and holds no line break unless the instruction does |
| Rewrite.LocalRewrite | backend/app/main.py:59-80 | running the steps, including the loop over the replacement pairs, yields the body followed by the note, with provider `local` |
| Rewrite.HandleRewrite | backend/app/main.py:30-80 | when the OpenAI path is enabled and the call returns content, that content with provider `openai`; when it returns no content, a server error, because the response model requires a string; when the path is disabled or the call raises, the local rewrite of the request with provider `local` |

## Left out

- Markdown rendering, syntax highlighting and raw-HTML handling are done by third-party libraries. They are not part of this model.
- Browser I/O is left out:
  - `localStorage`, which is reduced to the `storageOk` parameter of `AfterChange`;
  - file download;
  - `FileReader`, whose result `LoadFile` receives as text;
  - theme variables;
  - caret geometry (`caretPosition`);
  - the keyboard and mouse listener plumbing.
- The `setTimeout` that refocuses the textarea and places the caret is modelled as taking effect at once.
- A "/" typed into the focused textarea is the two methods `Editor.EditorState.TypeSlash`, for the textarea's insertion stored through `onChange`, and `Editor.EditorState.OpenSlashMenu`, for the keydown handler's reaction. The model does not fix their order, and neither reads what the other writes. A "/" typed while the textarea is not focused does not reach the document, so it is not modelled. The menu position is not modelled either.
- The `if (!ta) return` guards, which fire only before the textarea is mounted, are not modelled.
- `LoadFile`: the textarea's selection after its text is replaced comes from the browser. The model places it at the end of the new text.
- The OpenAI chat call (`backend/app/main.py:43-53`) is foreign code. It becomes the `RemoteCall` parameter: it either raised, or returned a message whose content may be absent. The prompt, model name and temperature it is called with are not modelled.
- Reading `OPENAI_API_KEY` and creating the client at start-up (`backend/app/main.py:8-14`) become the `apiKey` and `clientCreated` parameters of `HandleRewrite`, from which `UseOpenAI` computes the flag.
- `HandleRewrite`: FastAPI's validation of the request body (a missing or non-string `text`) is not modelled; the handler receives the fields already parsed.
- The FastAPI application, CORS, `/api/health` and the uvicorn entry point are left out.
- `frontend/src/main.tsx` and `frontend/src/components/MermaidChart.tsx` are not part of this model.
- Lengths and indices count characters. JavaScript counts UTF-16 code units, so a character outside the Basic Multilingual Plane counts as two in `chars` and in caret positions there.
- `Text.Lower` lower-cases ASCII letters only:
  - For the slash filter this is weaker than JavaScript's full Unicode `toLowerCase` only for labels holding non-ASCII letters that have case. The labels of `SLASH_COMMANDS` hold no letters with case at all, so for this table the two give the same matches for every filter.
  - For the extension test it is exact, because `/i` without the `u` flag folds only within ASCII for these letters.
- `Editor.EditorState.ApplyToolbar` models the keyboard shortcuts as they are evidently intended, on the current text. `Editor.ShortcutEdit` models them as written; see Findings. The same stale text reaches the Ctrl+S download, which is left out with the rest of file download.
- The component never writes `slashFilter` other than clearing it. The model keeps the field and the filter function but has no operation that types into the filter.

## Findings

| source | as written | input that shows it | evidently intended | confidence | as-written member | corrected member |
|---|---|---|---|---|---|---|
| frontend/src/App.tsx:235-279 | the keydown listener is registered again only when `slashOpen` changes, so Ctrl+B/I/K call the `applyToolbar` of that render, which splices the text of that render at the live selection | listener registered while the text was empty; "abc" typed; caret at 3; Ctrl+B gives `**加粗文本**` and "abc" is lost | the shortcut edits the current text, as the toolbar button does: "abc" followed by `**加粗文本**` | not executed | Editor.ShortcutDropsTypedText | Editor.EditorState.ApplyToolbar |

=== FILE: editor.dfy ===
/**
  * The text-editing core of the InkPersona Markdown editor (the React
  * component in frontend/src/App.tsx): the toolbar and slash-command tables,
  * the splice that a toolbar button performs on the selection, the snippet
  * insertion of the slash menu, the word/line statistics, the slash-menu
  * filter and the title derived from an imported file name. The component's
  * state that these handlers change is the class `EditorState`.
  */
module Editor {
  import opened Text

  // ---------------------------------------------------------------------------
  // Data: toolbar tools and slash commands.
  // ---------------------------------------------------------------------------

  /** A toolbar entry. The source's optional string fields `insert`, `prefix`
      and `template` are only ever read through `||` or `if`, where an absent
      field and the empty string behave alike, so "" stands for "absent".
      `wrap` is a pair, which is truthy whenever present. */
  datatype Tool = Tool(
    key: string,
    tip: string,
    wrap: Option<(string, string)>,
    insert: string,
    prefix: string,
    template: string)

  /** An entry of `SLASH_COMMANDS`; `caption` is the source's `label`, a word
      Dafny reserves. */
  datatype SlashCommand = SlashCommand(key: string, caption: string, snippet: string)

  const TOOLBAR: seq<Tool> := [
    Tool("bold", "粗体 (Ctrl+B)", Some(("**", "**")), "加粗文本", "", ""),
    Tool("italic", "斜体 (Ctrl+I)", Some(("*", "*")), "斜体文本", "", ""),
    Tool("strike", "删除线", Some(("~~", "~~")), "删除线文本", "", ""),
    Tool("code", "行内代码", Some(("`", "`")), "代码", "", ""),
    Tool("quote", "引用", None, "引用内容", "> ", ""),
    Tool("ul", "无序列表", None, "列表项", "- ", ""),
    Tool("ol", "有序列表", None, "列表项", "1. ", ""),
    Tool("link", "链接 (Ctrl+K)", None, "", "", "[链接文本](https://example.com)"),
    Tool("image", "图片", None, "", "", "![图片描述](https://example.com/image.jpg)"),
    Tool("table", "表格", None, "", "",
      "| 列1 | 列2 | 列3 |\n|-----|-----|-----|\n| 值1 | 值2 | 值3 |\n| 值4 | 值5 | 值6 |")
  ]

  const SLASH_COMMANDS: seq<SlashCommand> := [
    SlashCommand("h1", "# 一级标题", "# 标题\n\n"),
    SlashCommand("h2", "## 二级标题", "## 小节标题\n\n"),
    SlashCommand("h3", "### 三级标题", "### 子标题\n\n"),
    SlashCommand("todo", "✓ 任务列表", "- [ ] 待办事项 1\n- [x] 已完成事项\n- [ ] 待办事项 2\n\n"),
    SlashCommand("note", "💡 提示块", "> **💡 提示**\n> \n> 这里是重要提示内容\n\n"),
    SlashCommand("warn", "⚠️ 警告块", "> **⚠️ 警告**\n> \n> 请注意这里的内容！\n\n"),
    SlashCommand("code", "💻 代码块", "```javascript\n// 在这里输入代码\nconsole.log('Hello World!');\n```\n\n"),
    SlashCommand("table", "📊 数据表格",
      "| 项目 | 状态 | 备注 |\n|------|------|------|\n| 项目A | 进行中 | 优先级高 |\n| 项目B | 已完成 | 质量良好 |\n\n"),
    SlashCommand("hr", "➖ 分割线", "\n---\n\n")
  ]

  const UNTITLED: string := "未命名文档"
  const SAVED: string := "已保存"
  const UNSAVED: string := "未保存更改"

  /** The first toolbar entry with the given key (`TOOLBAR.find`). */
  function FindTool(key: string): (r: Option<Tool>)
    ensures r.Some? ==> r.value in TOOLBAR && r.value.key == key
    ensures r.None? ==> forall t :: t in TOOLBAR ==> t.key != key
  {
    FindToolIn(TOOLBAR, key)
  }

  function FindToolIn(tools: seq<Tool>, key: string): (r: Option<Tool>)
    ensures r.Some? ==> r.value in tools && r.value.key == key
    ensures r.None? ==> forall t :: t in tools ==> t.key != key
  {
    if tools == [] then None
    else if tools[0].key == key then Some(tools[0])
    else FindToolIn(tools[1..], key)
  }

  /** The keyboard shortcuts look up "bold", "italic" and "link" and assert
      that the result is present: the table has all three. */
  lemma ShortcutToolsExist()
    ensures FindTool("bold") == Some(TOOLBAR[0]) && TOOLBAR[0].wrap == Some(("**", "**"))
    ensures FindTool("italic") == Some(TOOLBAR[1]) && TOOLBAR[1].wrap == Some(("*", "*"))
    ensures FindTool("link") == Some(TOOLBAR[7]) && TOOLBAR[7].template == "[链接文本](https://example.com)"
  {
    BoldShortcut();
    ItalicShortcut();
    LinkShortcut();
  }

  lemma BoldShortcut()
    ensures FindTool("bold") == Some(TOOLBAR[0]) && TOOLBAR[0].wrap == Some(("**", "**"))
  {
    FindToolInAt(TOOLBAR, "bold", 0);
  }

  lemma ItalicShortcut()
    ensures FindTool("italic") == Some(TOOLBAR[1]) && TOOLBAR[1].wrap == Some(("*", "*"))
  {
    FindToolInAt(TOOLBAR, "italic", 1);
  }

  lemma LinkShortcut()
    ensures FindTool("link") == Some(TOOLBAR[7]) && TOOLBAR[7].template == "[链接文本](https://example.com)"
  {
    LinkIsEighth();
    FindToolInAt(TOOLBAR, "link", 7);
  }

  lemma LinkIsEighth()
    ensures TOOLBAR[7].key == "link"
    ensures forall j :: 0 <= j < 7 ==> TOOLBAR[j].key != "link"
  {
    forall j | 0 <= j < 7 ensures TOOLBAR[j].key != "link" {
      if j < 4 {
        assert j == 0 || j == 1 || j == 2 || j == 3;
      } else {
        assert j == 4 || j == 5 || j == 6;
      }
    }
  }

  /** The search returns the entry at `k` when that is the first entry with
      the key. */
  lemma {:induction false} FindToolInAt(tools: seq<Tool>, key: string, k: nat)
    requires k < |tools| && tools[k].key == key
    requires forall j :: 0 <= j < k ==> tools[j].key != key
    ensures FindToolIn(tools, key) == Some(tools[k])
  {
    if k > 0 {
      assert tools[0].key != key;
      FindToolInAt(tools[1..], key, k - 1);
    }
  }

  /** Every toolbar entry is a wrap with a non-empty opening marker, a
      non-empty line prefix or a non-empty template. */
  predicate InsertsText(t: Tool)
  {
    || (t.wrap.Some? && t.wrap.value.0 != "")
    || (t.wrap.None? && t.prefix != "")
    || (t.wrap.None? && t.prefix == "" && t.template != "")
  }

  /** Pressing any toolbar button inserts text, so the caret always ends
      after the start of the former selection. */
  lemma {:induction false} ToolbarAlwaysInserts(i: nat, selected: string)
    requires i < |TOOLBAR|
    ensures |Replacement(TOOLBAR[i], selected)| > 0
  {
    var t := TOOLBAR[i];
    assert InsertsText(t) by {
      assert forall k :: 0 <= k < |TOOLBAR| ==> InsertsText(TOOLBAR[k]);
    }
    if t.wrap.None? && t.prefix != "" {
      PrefixLinesByCharacters(t.prefix, selected);
    }
  }

  // ---------------------------------------------------------------------------
  // Splicing the document.
  // ---------------------------------------------------------------------------

  /** A new document text with the caret position that goes with it. */
  datatype Edit = Edit(text: string, caret: nat)

  /** Replace `value[from..to]` by `ins` and put the caret just after `ins`:
      the text before `from` and the text from `to` on are unchanged. */
  function Splice(value: string, from: nat, to: nat, ins: string): (e: Edit)
    requires from <= to <= |value|
    ensures |e.text| == |value| - (to - from) + |ins|
    ensures e.caret == from + |ins| <= |e.text|
    ensures e.text[..from] == value[..from]
    ensures e.text[from..e.caret] == ins
    ensures e.text[e.caret..] == value[to..]
  {
    var text := value[..from] + ins + value[to..];
    assert text[..from] == value[..from];
    assert text[from..from + |ins|] == ins;
    assert text[from + |ins|..] == value[to..];
    Edit(text, from + |ins|)
  }

  // ---------------------------------------------------------------------------
  // Toolbar buttons.
  // ---------------------------------------------------------------------------

  /** The text a toolbar button operates on: the selection when it is not
      empty, otherwise the tool's placeholder `insert` (or ""). */
  function SelectedText(value: string, start: nat, end: nat, tool: Tool): (r: string)
    requires start <= end <= |value|
    ensures start < end ==> r == value[start..end]
    ensures start == end ==> r == tool.insert
  {
    if value[start..end] != [] then value[start..end] else tool.insert
  }

  function AddPrefix(prefix: string, lines: seq<string>): (r: seq<string>)
    ensures |r| == |lines|
    ensures forall i :: 0 <= i < |lines| ==> r[i] == prefix + lines[i]
  {
    if lines == [] then [] else [prefix + lines[0]] + AddPrefix(prefix, lines[1..])
  }

  /** Every line of `selected` with `prefix` in front of it. With a prefix
      that holds no line break, the lines of the result are exactly the
      lines of the selection, each prefixed. */
  function PrefixLines(prefix: string, selected: string): (r: string)
    ensures '\n' !in prefix ==> Split(r, '\n') == AddPrefix(prefix, Split(selected, '\n'))
  {
    var lines := AddPrefix(prefix, Split(selected, '\n'));
    if '\n' !in prefix then
      assert forall i :: 0 <= i < |lines| ==> '\n' !in lines[i] by {
        forall i | 0 <= i < |lines| ensures '\n' !in lines[i] {
          assert lines[i] == prefix + Split(selected, '\n')[i];
        }
      }
      SplitJoin(lines, '\n');
      Join(lines, '\n')
    else Join(lines, '\n')
  }

  /** Reference definition of the prefixing: the prefix in front of the text
      and again after every line break. */
  function Indent(prefix: string, s: string): string
  {
    if s == [] then []
    else if s[0] == '\n' then ['\n'] + prefix + Indent(prefix, s[1..])
    else [s[0]] + Indent(prefix, s[1..])
  }

  lemma {:induction false} PrefixLinesByCharacters(prefix: string, s: string)
    ensures PrefixLines(prefix, s) == prefix + Indent(prefix, s)
  {
    if s != [] {
      PrefixLinesByCharacters(prefix, s[1..]);
      if s[0] == '\n' {
        PrefixLinesAtBreak(prefix, s);
      } else {
        PrefixLinesAtOther(prefix, s);
      }
    }
  }

  /** One step of `PrefixLinesByCharacters` for a text starting with a line
      break: the first line is empty. */
  lemma {:induction false} PrefixLinesAtBreak(prefix: string, s: string)
    requires s != [] && s[0] == '\n'
    requires Join(AddPrefix(prefix, Split(s[1..], '\n')), '\n') == prefix + Indent(prefix, s[1..])
    ensures Join(AddPrefix(prefix, Split(s, '\n')), '\n') == prefix + Indent(prefix, s)
  {
    var rest := Split(s[1..], '\n');
    assert Split(s, '\n') == [[]] + rest;
    AddPrefixCons(prefix, [], rest);
    assert prefix + [] == prefix;
    JoinCons(prefix, AddPrefix(prefix, rest), '\n');
    assert Join(AddPrefix(prefix, Split(s, '\n')), '\n') == prefix + ['\n'] + Join(AddPrefix(prefix, rest), '\n');
  }

  /** One step of `PrefixLinesByCharacters` for a text starting with any
      other character: it joins the first line. */
  lemma {:induction false} PrefixLinesAtOther(prefix: string, s: string)
    requires s != [] && s[0] != '\n'
    requires Join(AddPrefix(prefix, Split(s[1..], '\n')), '\n') == prefix + Indent(prefix, s[1..])
    ensures Join(AddPrefix(prefix, Split(s, '\n')), '\n') == prefix + Indent(prefix, s)
  {
    var rest := Split(s[1..], '\n');
    var tail := rest[1..];
    var after := if tail == [] then [] else ['\n'] + Join(AddPrefix(prefix, tail), '\n');
    var x := Indent(prefix, s[1..]);
    assert rest == [rest[0]] + tail;
    JoinPrefixedCons(prefix, rest[0], tail);
    DropCommonPrefix(prefix, x, rest[0] + after);
    assert Split(s, '\n') == [[s[0]] + rest[0]] + tail;
    JoinPrefixedCons(prefix, [s[0]] + rest[0], tail);
    assert ([s[0]] + rest[0]) + after == [s[0]] + x;
    assert Indent(prefix, s) == [s[0]] + x;
  }

  /** Prefixing and joining a first line and the lines after it. */
  lemma {:induction false} JoinPrefixedCons(prefix: string, line: string, lines: seq<string>)
    ensures Join(AddPrefix(prefix, [line] + lines), '\n') ==
      prefix + (line + (if lines == [] then [] else ['\n'] + Join(AddPrefix(prefix, lines), '\n')))
  {
    AddPrefixCons(prefix, line, lines);
    JoinCons(prefix + line, AddPrefix(prefix, lines), '\n');
  }

  lemma {:induction false} DropCommonPrefix(p: string, x: string, y: string)
    requires p + x == p + y
    ensures x == y
  {
    assert x == (p + x)[|p|..];
    assert y == (p + y)[|p|..];
  }

  lemma {:induction false} AddPrefixCons(prefix: string, line: string, lines: seq<string>)
    ensures AddPrefix(prefix, [line] + lines) == [prefix + line] + AddPrefix(prefix, lines)
  {
    assert ([line] + lines)[1..] == lines;
  }

  lemma {:induction false} JoinCons(part: string, parts: seq<string>, sep: char)
    ensures Join([part] + parts, sep) == part + (if parts == [] then [] else [sep] + Join(parts, sep))
  {
    assert ([part] + parts)[1..] == parts;
  }

  /** With a prefix that holds no line break, prefixing keeps the lines of
      the selection one for one and puts the prefix in front of each: the
      prefix is added (number of line breaks + 1) times and the number of
      line breaks is unchanged. */
  lemma {:induction false} PrefixLinesLines(prefix: string, s: string)
    requires '\n' !in prefix
    ensures Split(PrefixLines(prefix, s), '\n') == AddPrefix(prefix, Split(s, '\n'))
    ensures |Split(PrefixLines(prefix, s), '\n')| == Count(s, '\n') + 1
    ensures Count(PrefixLines(prefix, s), '\n') == Count(s, '\n')
  {
  }

  /** What replaces the selection. `wrap` takes precedence over `prefix`,
      which takes precedence over `template`; without any of them the
      selected text is put back as it is. */
  function Replacement(tool: Tool, selected: string): (r: string)
    ensures tool.wrap.Some? ==>
      var (open, close) := tool.wrap.value;
      |r| == |open| + |selected| + |close| && StartsWith(r, open) &&
      r[|open|..|open| + |selected|] == selected && r[|open| + |selected|..] == close
    ensures tool.wrap.None? && tool.prefix != "" && '\n' !in tool.prefix ==>
      Split(r, '\n') == AddPrefix(tool.prefix, Split(selected, '\n'))
    ensures tool.wrap.None? && tool.prefix == "" && tool.template != "" ==> r == tool.template
    ensures tool.wrap.None? && tool.prefix == "" && tool.template == "" ==> r == selected
  {
    match tool.wrap
    case Some((open, close)) =>
      var r := open + selected + close;
      assert r[..|open|] == open;
      assert r[|open|..|open| + |selected|] == selected;
      r
    case None =>
      if tool.prefix != "" then
        PrefixLines(tool.prefix, selected)
      else if tool.template != "" then tool.template
      else selected
  }

  /** The new text and caret after pressing a toolbar button with the
      selection `[start, end)`: the replacement sits between the untouched
      text before `start` and the untouched text from `end` on, and the caret
      is right after it. */
  function ToolbarEdit(value: string, start: nat, end: nat, tool: Tool): (e: Edit)
    requires start <= end <= |value|
    ensures var replaced := Replacement(tool, SelectedText(value, start, end, tool));
      && |e.text| == |value| - (end - start) + |replaced|
      && e.caret == start + |replaced|
      && e.text[..start] == value[..start]
      && e.text[start..e.caret] == replaced
      && e.text[e.caret..] == value[end..]
  {
    Splice(value, start, end, Replacement(tool, SelectedText(value, start, end, tool)))
  }

  /** A template tool puts in its template whatever was selected. */
  lemma {:induction false} TemplateIgnoresSelection(value: string, start: nat, end: nat, tool: Tool, other: string)
    requires start <= end <= |value|
    requires tool.wrap.None? && tool.prefix == "" && tool.template != ""
    ensures ToolbarEdit(value, start, end, tool).text == value[..start] + tool.template + value[end..]
    ensures Replacement(tool, other) == Replacement(tool, SelectedText(value, start, end, tool))
  {
    var e := ToolbarEdit(value, start, end, tool);
    assert e.text == e.text[..start] + e.text[start..e.caret] + e.text[e.caret..];
  }

  // ---------------------------------------------------------------------------
  // Keyboard shortcuts as written.
  // ---------------------------------------------------------------------------

  /** JavaScript's `s.slice(from, to)` for non-negative indices: both are
      clamped to the length, and the result is empty when `to` falls before
      `from`. */
  function JsSlice(s: string, from: nat, to: nat): (r: string)
    ensures from <= to <= |s| ==> r == s[from..to]
    ensures |r| <= |s|
    ensures |s| <= from ==> r == []
    ensures from <= |s| <= to ==> r == s[from..]
    ensures to < from ==> r == []
  {
    var a := if from < |s| then from else |s|;
    var b := if to < |s| then to else |s|;
    if b < a then [] else s[a..b]
  }

  /** What Ctrl+B, Ctrl+I or Ctrl+K does as the component is written. The
      keydown listener is registered again only when `slashOpen` changes, so
      the `applyToolbar` it calls sees the text `stale` of the render that
      registered it, while the selection comes from the live textarea. When
      nothing was typed since then, this is the toolbar edit. */
  function ShortcutEdit(stale: string, start: nat, end: nat, tool: Tool): (e: Edit)
    ensures start <= end <= |stale| ==> e == ToolbarEdit(stale, start, end, tool)
  {
    var picked := JsSlice(stale, start, end);
    var replaced := Replacement(tool, if picked != [] then picked else tool.insert);
    var e := Edit(JsSlice(stale, 0, start) + replaced + JsSlice(stale, end, |stale|), start + |replaced|);
    if start <= end <= |stale| then
      ShortcutEditAgrees(stale, start, end, tool, picked, replaced, e);
      e
    else e
  }

  lemma ShortcutEditAgrees(stale: string, start: nat, end: nat, tool: Tool, picked: string, replaced: string, e: Edit)
    requires start <= end <= |stale|
    requires picked == JsSlice(stale, start, end)
    requires replaced == Replacement(tool, if picked != [] then picked else tool.insert)
    requires e == Edit(JsSlice(stale, 0, start) + replaced + JsSlice(stale, end, |stale|), start + |replaced|)
    ensures e == ToolbarEdit(stale, start, end, tool)
  {
    assert picked == stale[start..end];
    assert replaced == Replacement(tool, SelectedText(stale, start, end, tool));
    assert e.text == stale[..start] + replaced + stale[end..];
  }

  /** The listener was registered while the text was empty; then "abc" was
      typed and Ctrl+B pressed with the caret at 3. As written the new text
      is the bold placeholder alone and the typed text is lost; the toolbar
      edit of the current text keeps it. */
  lemma ShortcutDropsTypedText()
    ensures FindTool("bold") == Some(TOOLBAR[0])
    ensures ShortcutEdit("", 3, 3, TOOLBAR[0]).text == "**加粗文本**"
    ensures ToolbarEdit("abc", 3, 3, TOOLBAR[0]).text == "abc**加粗文本**"
  {
    BoldShortcut();
    var bold := TOOLBAR[0];
    assert bold.wrap == Some(("**", "**")) && bold.insert == "加粗文本";
    assert JsSlice("", 3, 3) == [] && JsSlice("", 0, 3) == [];
    assert SelectedText("abc", 3, 3, bold) == "加粗文本";
  }

  /** The same loss in general: whatever was typed after the listener was
      registered on `v0`, a shortcut at the end of the text puts the tool's
      placeholder after `v0` alone, while the toolbar edit of the current
      text keeps what was typed. */
  lemma ShortcutLosesTyped(v0: string, typed: string, tool: Tool)
    requires typed != []
    ensures var k := |v0| + |typed|;
      && ShortcutEdit(v0, k, k, tool).text == v0 + Replacement(tool, tool.insert)
      && ToolbarEdit(v0 + typed, k, k, tool).text == v0 + typed + Replacement(tool, tool.insert)
  {
    var k := |v0| + |typed|;
    var ins := Replacement(tool, tool.insert);
    assert JsSlice(v0, k, k) == [] && JsSlice(v0, k, |v0|) == [];
    assert JsSlice(v0, 0, k) == v0;
    assert ShortcutEdit(v0, k, k, tool).text == v0 + ins + [];
    var now := v0 + typed;
    assert SelectedText(now, k, k, tool) == tool.insert;
    assert now[..k] == now && now[k..] == [];
    assert ToolbarEdit(now, k, k, tool).text == now + ins + [];
  }

  // ---------------------------------------------------------------------------
  // Slash-menu snippets.
  // ---------------------------------------------------------------------------

  /** Where a snippet starts: at the last "/" before the caret when there is
      one (the "/" that opened the menu is overwritten), otherwise at the
      caret. */
  function SnippetStart(value: string, start: nat): (a: nat)
    requires start <= |value|
    ensures a <= start
    ensures a < start ==> value[a] == '/' && forall j :: a < j < start ==> value[j] != '/'
    ensures a == start ==> forall j :: 0 <= j < start ==> value[j] != '/'
  {
    var before := value[..start];
    var i := LastIndexOf(before, '/');
    assert forall j :: 0 <= j < start ==> value[j] == before[j];
    if i >= 0 then i
    else
      assert forall j :: 0 <= j < start ==> before[j] in before;
      start
  }

  /** The new text and caret after choosing a snippet: everything from the
      snippet start up to the end of the selection is replaced by the
      snippet, and the caret lands after it. */
  function SnippetEdit(value: string, start: nat, end: nat, snippet: string): (e: Edit)
    requires start <= end <= |value|
    ensures var a := SnippetStart(value, start);
      && |e.text| == |value| - (end - a) + |snippet|
      && e.caret == a + |snippet|
      && e.text[..a] == value[..a]
      && e.text[a..e.caret] == snippet
      && e.text[e.caret..] == value[end..]
  {
    Splice(value, SnippetStart(value, start), end, snippet)
  }

  /** Right after "/" was typed over the selection `v[s..e]`, inserting a
      snippet overwrites exactly that "/": the result is the text around the
      former selection with the snippet in between, whatever slashes the
      text held before. */
  lemma TypedSlashThenSnippet(v: string, s: nat, e: nat, snip: string)
    requires s <= e <= |v|
    ensures var typed := v[..s] + "/" + v[e..];
      && SnippetStart(typed, s + 1) == s
      && SnippetEdit(typed, s + 1, s + 1, snip) == Edit(v[..s] + snip + v[e..], s + |snip|)
  {
    var typed := v[..s] + "/" + v[e..];
    assert typed[..s + 1] == v[..s] + "/";
    assert LastIndexOf(typed[..s + 1], '/') == s;
    assert typed[..s] == v[..s];
    assert typed[s + 1..] == v[e..];
  }

  /** The snippet edit spelled out as `insertSnippet` computes it, with
      `lastIndexOf` on the text before the caret. */
  lemma {:induction false} SnippetEditByLastSlash(value: string, start: nat, end: nat, snippet: string)
    requires start <= end <= |value|
    ensures var i := LastIndexOf(value[..start], '/');
      var a := if i >= 0 then i else start;
      && a <= end
      && SnippetEdit(value, start, end, snippet) == Edit(value[..a] + snippet + value[end..], a + |snippet|)
  {
  }

  // ---------------------------------------------------------------------------
  // Word, character and line counts.
  // ---------------------------------------------------------------------------

  /** ECMAScript white space and line terminators: the set removed by
      `String.prototype.trim` and matched by `\s`. */
  predicate IsJsSpace(c: char)
  {
    c == '\t' || c == '\n' || c == '\U{000B}' || c == '\U{000C}' || c == '\r' || c == ' ' ||
    c == '\U{00A0}' || c == '\U{1680}' || ('\U{2000}' <= c <= '\U{200A}') ||
    c == '\U{2028}' || c == '\U{2029}' || c == '\U{202F}' || c == '\U{205F}' ||
    c == '\U{3000}' || c == '\U{FEFF}'
  }

  /** The pieces of `s.split(/\s+/)`. */
  function SplitOnSpaceRuns(s: string): (pieces: seq<string>)
    ensures |pieces| >= 1
    decreases |s|
  {
    if s == [] then [[]]
    else if IsJsSpace(s[0]) then
      var rest := TrimStart(s, IsJsSpace);
      assert rest != s;
      [[]] + SplitOnSpaceRuns(rest)
    else
      var rest := SplitOnSpaceRuns(s[1..]);
      [[s[0]] + rest[0]] + rest[1..]
  }

  /** A piece of the split: no white space in it. */
  predicate SpaceFree(w: string)
  {
    forall j :: 0 <= j < |w| ==> !IsJsSpace(w[j])
  }

  /** No piece of `split(/\s+/)` holds white space. */
  lemma {:induction false} SplitOnSpaceRunsSpaceFree(s: string, pieces: seq<string>)
    requires pieces == SplitOnSpaceRuns(s)
    ensures forall i :: 0 <= i < |pieces| ==> SpaceFree(pieces[i])
    decreases |s|
  {
    if s == [] {
    } else if IsJsSpace(s[0]) {
      var rest := TrimStart(s, IsJsSpace);
      assert rest != s;
      var more := SplitOnSpaceRuns(rest);
      SplitOnSpaceRunsSpaceFree(rest, more);
      assert pieces == [[]] + more;
      AllSpaceFreeCons([], more);
    } else {
      var rest := SplitOnSpaceRuns(s[1..]);
      SplitOnSpaceRunsSpaceFree(s[1..], rest);
      assert SpaceFree(rest[0]);
      SpaceFreeCons(s[0], rest[0]);
      assert pieces == [[s[0]] + rest[0]] + rest[1..];
      AllSpaceFreeCons([s[0]] + rest[0], rest[1..]);
    }
  }

  lemma SpaceFreeCons(c: char, w: string)
    requires !IsJsSpace(c) && SpaceFree(w)
    ensures SpaceFree([c] + w)
  {
    forall j | 0 < j <= |w| ensures !IsJsSpace(([c] + w)[j]) {
      assert ([c] + w)[j] == w[j - 1];
    }
  }

  lemma AllSpaceFreeCons(w: string, ws: seq<string>)
    requires SpaceFree(w)
    requires forall i :: 0 <= i < |ws| ==> SpaceFree(ws[i])
    ensures forall i :: 0 <= i < |[w] + ws| ==> SpaceFree(([w] + ws)[i])
  {
    forall i | 0 < i < |[w] + ws| ensures SpaceFree(([w] + ws)[i]) {
      assert ([w] + ws)[i] == ws[i - 1];
    }
  }

  /** Only the first and the last piece of `split(/\s+/)` can be empty, and
      the first is not empty when the text starts with a non-space
      character. */
  lemma {:induction false} SplitOnSpaceRunsNonEmpty(s: string, pieces: seq<string>)
    requires pieces == SplitOnSpaceRuns(s)
    ensures forall i :: 0 < i < |pieces| - 1 ==> pieces[i] != []
    ensures s != [] && !IsJsSpace(s[0]) ==> pieces[0] != []
    decreases |s|
  {
    if s == [] {
    } else if IsJsSpace(s[0]) {
      var rest := TrimStart(s, IsJsSpace);
      assert rest != s;
      var more := SplitOnSpaceRuns(rest);
      SplitOnSpaceRunsNonEmpty(rest, more);
      assert pieces == [[]] + more;
      assert forall i :: 0 < i < |pieces| ==> pieces[i] == more[i - 1];
    } else {
      var rest := SplitOnSpaceRuns(s[1..]);
      SplitOnSpaceRunsNonEmpty(s[1..], rest);
      assert pieces == [[s[0]] + rest[0]] + rest[1..];
      forall i | 0 < i < |pieces| - 1 ensures pieces[i] != [] {
        assert pieces[i] == rest[i];
      }
    }
  }

  /** Reference count of words: the positions where a non-space character
      follows a space or the start of the text (`afterSpace` says whether
      the position before `s` counts as a space). */
  function WordStarts(s: string, afterSpace: bool): nat
  {
    if s == [] then 0
    else (if afterSpace && !IsJsSpace(s[0]) then 1 else 0) + WordStarts(s[1..], IsJsSpace(s[0]))
  }

  lemma {:induction false} WordStartsAllSpace(s: string, afterSpace: bool)
    requires forall i :: 0 <= i < |s| ==> IsJsSpace(s[i])
    ensures WordStarts(s, afterSpace) == 0
  {
    if s != [] {
      WordStartsAllSpace(s[1..], true);
    }
  }

  lemma {:induction false} WordStartsAppend(a: string, b: string, afterSpace: bool)
    requires a != []
    ensures WordStarts(a + b, afterSpace) == WordStarts(a, afterSpace) + WordStarts(b, IsJsSpace(a[|a| - 1]))
  {
    assert (a + b)[1..] == a[1..] + b;
    if |a| > 1 {
      WordStartsAppend(a[1..], b, IsJsSpace(a[0]));
    }
  }

  lemma {:induction false} WordStartsLeadingSpace(s: string)
    ensures WordStarts(TrimStart(s, IsJsSpace), true) == WordStarts(s, true)
  {
    if s != [] && IsJsSpace(s[0]) {
      WordStartsLeadingSpace(s[1..]);
    }
  }

  /** For a text that does not end in white space, `split(/\s+/)` yields one
      piece per word, plus an empty first piece when the text starts with
      white space. */
  lemma {:induction false} SplitCountsWords(s: string)
    requires s != [] && !IsJsSpace(s[|s| - 1])
    ensures |SplitOnSpaceRuns(s)| == WordStarts(s, true) + (if IsJsSpace(s[0]) then 1 else 0)
    decreases |s|
  {
    if IsJsSpace(s[0]) {
      var rest := TrimStart(s, IsJsSpace);
      assert rest != [] && rest[|rest| - 1] == s[|s| - 1];
      SplitCountsWords(rest);
      WordStartsLeadingSpace(s);
    } else if |s| > 1 {
      SplitCountsWords(s[1..]);
    }
  }

  /** Splitting the trimmed text on white-space runs counts the words of the
      untrimmed text. */
  lemma {:induction false} TrimmedWords(text: string)
    ensures var t := Trim(text, IsJsSpace);
      (if t != [] then |SplitOnSpaceRuns(t)| else 0) == WordStarts(text, true)
  {
    var t := Trim(text, IsJsSpace);
    TrimKeepsWordStarts(text);
    if t != [] {
      TrimmedEnds(text);
      SplitCountsWords(t);
    }
  }

  lemma {:induction false} TrimmedEnds(text: string)
    requires Trim(text, IsJsSpace) != []
    ensures var t := Trim(text, IsJsSpace); !IsJsSpace(t[0]) && !IsJsSpace(t[|t| - 1])
  {
  }

  lemma {:induction false} TrimKeepsWordStarts(text: string)
    ensures WordStarts(Trim(text, IsJsSpace), true) == WordStarts(text, true)
  {
    var lead := TrimStart(text, IsJsSpace);
    assert Trim(text, IsJsSpace) == TrimEnd(lead, IsJsSpace);
    WordStartsLeadingSpace(text);
    WordStartsTrailingSpace(lead);
  }

  lemma {:induction false} WordStartsTrailingSpace(s: string)
    ensures WordStarts(TrimEnd(s, IsJsSpace), true) == WordStarts(s, true)
  {
    var t := TrimEnd(s, IsJsSpace);
    var trail := s[|t|..];
    assert s == t + trail;
    forall i | 0 <= i < |trail| ensures IsJsSpace(trail[i]) {
      assert trail[i] == s[|t| + i];
    }
    if t == [] {
      WordStartsAllSpace(s, true);
    } else {
      WordStartsAppend(t, trail, true);
      WordStartsAllSpace(trail, IsJsSpace(t[|t| - 1]));
    }
  }

  datatype Stats = Stats(chars: nat, words: nat, lines: nat)

  /** `updateWordCount`: characters, words (white-space separated, counted on
      the trimmed text) and lines (`split('\n')` pieces). */
  function WordCount(text: string): (r: Stats)
    ensures r.chars == |text|
    ensures r.words == WordStarts(text, true)
    ensures r.lines == Count(text, '\n') + 1
  {
    var t := Trim(text, IsJsSpace);
    var words := if t != [] then |SplitOnSpaceRuns(t)| else 0;
    TrimmedWords(text);
    Stats(|text|, words, |Split(text, '\n')|)
  }

  /** The word count is 0 exactly for a text that is all whitespace,
      the empty text included. */
  lemma WordCountZero(text: string)
    ensures WordCount(text).words == 0 <==> forall i :: 0 <= i < |text| ==> IsJsSpace(text[i])
  {
    TrimmedWords(text);
  }

  // ---------------------------------------------------------------------------
  // Slash-menu filter.
  // ---------------------------------------------------------------------------

  /** A command is shown for a filter when its lower-cased label contains the
      lower-cased filter, that is, when the lower-cased filter occurs at some
      position of the lower-cased label. */
  predicate Matches(cmd: SlashCommand, filter: string)
    ensures Matches(cmd, filter) ==> exists i :: OccursAt(Lower(cmd.caption), Lower(filter), i)
    ensures (exists i :: OccursAt(Lower(cmd.caption), Lower(filter), i)) ==> Matches(cmd, filter)
  {
    ContainsAt(Lower(cmd.caption), Lower(filter));
    Contains(Lower(cmd.caption), Lower(filter))
  }

  /** The letter case of the filter does not matter: a filter matches
      exactly the commands its lower-cased form matches. */
  lemma FilterIgnoresCase(cmd: SlashCommand, filter: string)
    ensures Matches(cmd, filter) <==> Matches(cmd, Lower(filter))
  {
    LowerIdempotent(filter);
  }

  predicate IsSubsequence<T(==)>(a: seq<T>, b: seq<T>)
  {
    if a == [] then true
    else if b == [] then false
    else if a[0] == b[0] then IsSubsequence(a[1..], b[1..])
    else IsSubsequence(a, b[1..])
  }

  function KeepMatching(cmds: seq<SlashCommand>, filter: string): (r: seq<SlashCommand>)
    ensures forall c :: c in r ==> c in cmds && Matches(c, filter)
    ensures forall c :: c in cmds && Matches(c, filter) ==> c in r
    ensures IsSubsequence(r, cmds)
    ensures forall c :: multiset(r)[c] == if Matches(c, filter) then multiset(cmds)[c] else 0
  {
    if cmds == [] then []
    else
      var rest := KeepMatching(cmds[1..], filter);
      assert cmds == [cmds[0]] + cmds[1..];
      assert multiset(cmds) == multiset{cmds[0]} + multiset(cmds[1..]);
      if Matches(cmds[0], filter) then
        assert multiset([cmds[0]] + rest) == multiset{cmds[0]} + multiset(rest);
        [cmds[0]] + rest
      else rest
  }

  /** `filteredSlashCommands`: all commands for an empty filter, otherwise
      exactly the matching commands, in their original order. */
  function FilterCommands(cmds: seq<SlashCommand>, filter: string): (r: seq<SlashCommand>)
    ensures filter == [] ==> r == cmds
    ensures forall c :: c in r ==> c in cmds && Matches(c, filter)
    ensures forall c :: c in cmds && Matches(c, filter) ==> c in r
    ensures IsSubsequence(r, cmds)
    ensures forall c :: multiset(r)[c] == if Matches(c, filter) then multiset(cmds)[c] else 0
  {
    if filter == [] then
      EmptyFilterKeepsAll(cmds);
      cmds
    else KeepMatching(cmds, filter)
  }

  /** Every command matches the empty filter, so the early return for an
      empty filter agrees with filtering. */
  lemma {:induction false} EmptyFilterKeepsAll(cmds: seq<SlashCommand>)
    ensures KeepMatching(cmds, []) == cmds
    ensures forall c :: Matches(c, [])
  {
    forall c ensures Matches(c, []) {
      assert StartsWith(Lower(c.caption), []);
    }
    if cmds != [] {
      EmptyFilterKeepsAll(cmds[1..]);
      assert cmds == [cmds[0]] + cmds[1..];
    }
  }

  // ---------------------------------------------------------------------------
  // Title of an imported file.
  // ---------------------------------------------------------------------------

  const IMPORT_EXTENSIONS: seq<string> := [".md", ".markdown", ".txt"]

  predicate EndsWithIgnoringCase(name: string, ext: string)
  {
    |ext| <= |name| && Lower(name[|name| - |ext|..]) == ext
  }

  /** `name.replace(/\.(md|markdown|txt)$/i, "")`: the title is the file name
      without a final ".md", ".markdown" or ".txt" in any letter case; other
      names are kept whole. */
  function StripExtension(name: string): (title: string)
    ensures |title| <= |name| && title == name[..|title|]
    ensures title != name ==> Lower(name[|title|..]) in IMPORT_EXTENSIONS
    ensures (forall ext :: ext in IMPORT_EXTENSIONS ==> !EndsWithIgnoringCase(name, ext)) ==> title == name
  {
    if EndsWithIgnoringCase(name, ".md") then name[..|name| - 3]
    else if EndsWithIgnoringCase(name, ".markdown") then name[..|name| - 9]
    else if EndsWithIgnoringCase(name, ".txt") then name[..|name| - 4]
    else name
  }

  /** Importing "base.ext" for any letter case of a recognised extension
      gives the title "base". */
  lemma {:induction false} StripExtensionOfImport(base: string, ext: string)
    requires Lower(ext) in IMPORT_EXTENSIONS
    ensures StripExtension(base + ext) == base
  {
    var name := base + ext;
    assert name[|name| - |ext|..] == ext;
    assert name[..|name| - |ext|] == base;
    assert EndsWithIgnoringCase(name, Lower(ext));
    if Lower(ext) == ".md" {
      assert |ext| == 3;
    } else if Lower(ext) == ".markdown" {
      NotMdSuffix(name, ext);
      assert |ext| == 9;
    } else {
      assert Lower(ext) == ".txt";
      NotMdSuffix(name, ext);
      NotMarkdownSuffix(name, ext);
      assert |ext| == 4;
    }
  }

  lemma {:induction false} NotMdSuffix(name: string, ext: string)
    requires Lower(ext) == ".markdown" || Lower(ext) == ".txt"
    requires |ext| <= |name| && name[|name| - |ext|..] == ext
    ensures !EndsWithIgnoringCase(name, ".md")
  {
    var k := |ext| - 3;
    assert name[|name| - 3..] == ext[k..];
    LowerSlice(ext, k, |ext|);
    assert Lower(ext)[k..][1] != 'm';
  }

  lemma {:induction false} NotMarkdownSuffix(name: string, ext: string)
    requires Lower(ext) == ".txt"
    requires |ext| <= |name| && name[|name| - |ext|..] == ext
    ensures !EndsWithIgnoringCase(name, ".markdown")
  {
    if |name| >= 9 {
      var tail := name[|name| - 9..];
      assert tail[5..] == ext;
      LowerSlice(tail, 5, 9);
      assert Lower(tail)[5] == '.';
    }
  }

  // ---------------------------------------------------------------------------
  // The editor component's state.
  // ---------------------------------------------------------------------------

  /** The component state the handlers change: the document text, the
      textarea selection, the title, the save status, the slash menu and the
      displayed statistics. */
  class EditorState {
    var value: string
    var selStart: nat
    var selEnd: nat
    var title: string
    var status: string
    var slashOpen: bool
    var slashFilter: string
    var counts: Stats

    /** The selection lies inside the text. */
    ghost predicate Valid()
      reads this
    {
      selStart <= selEnd <= |value|
    }

    constructor (initial: string)
      ensures Valid()
      ensures value == initial && selStart == 0 && selEnd == 0
      ensures title == UNTITLED && status == SAVED
      ensures !slashOpen && slashFilter == []
      ensures counts == Stats(0, 0, 0)
    {
      value := initial;
      selStart, selEnd := 0, 0;
      title := UNTITLED;
      status := SAVED;
      slashOpen := false;
      slashFilter := [];
      counts := Stats(0, 0, 0);
    }

    /** `applyToolbar`: replace the selection, mark the document unsaved and
        collapse the selection to a caret after the inserted text. */
    method ApplyToolbar(tool: Tool)
      requires Valid()
      modifies this
      ensures Valid()
      ensures var e := ToolbarEdit(old(value), old(selStart), old(selEnd), tool);
        value == e.text && selStart == e.caret && selEnd == e.caret
      ensures status == UNSAVED
      ensures title == old(title) && slashOpen == old(slashOpen)
      ensures slashFilter == old(slashFilter) && counts == old(counts)
    {
      var start, end := selStart, selEnd;
      var selected := SelectedText(value, start, end, tool);
      var replaced := Replacement(tool, selected);
      value := value[..start] + replaced + value[end..];
      status := UNSAVED;
      var caret := start + |replaced|;
      selStart, selEnd := caret, caret;
    }

    /** `insertSnippet`: overwrite from the snippet start to the end of the
        selection, close the menu and put the caret after the snippet. */
    method InsertSnippet(snippet: string)
      requires Valid()
      modifies this
      ensures Valid()
      ensures var e := SnippetEdit(old(value), old(selStart), old(selEnd), snippet);
        value == e.text && selStart == e.caret && selEnd == e.caret
      ensures !slashOpen
      ensures title == old(title) && status == old(status)
      ensures slashFilter == old(slashFilter) && counts == old(counts)
    {
      var current, start, end := value, selStart, selEnd;
      var textBefore := current[..start];
      var lastSlashIndex := LastIndexOf(textBefore, '/');
      var actualStart := if lastSlashIndex >= 0 then lastSlashIndex else start;
      SnippetEditByLastSlash(current, start, end, snippet);
      var next := current[..actualStart] + snippet + current[end..];
      var caret := actualStart + |snippet|;
      value, slashOpen := next, false;
      selStart, selEnd := caret, caret;
    }

    /** The commands the slash menu lists for the current filter. */
    function FilteredSlashCommands(): (r: seq<SlashCommand>)
      reads this
      ensures slashFilter == [] ==> r == SLASH_COMMANDS
      ensures forall c :: c in r <==> c in SLASH_COMMANDS && Matches(c, slashFilter)
    {
      FilterCommands(SLASH_COMMANDS, slashFilter)
    }

    /** The textarea's own reaction to a typed "/", which the keydown
        handler does not prevent: the selection is replaced by "/", the
        caret follows it, and `onChange` stores the new text. */
    method TypeSlash()
      requires Valid()
      modifies this
      ensures Valid()
      ensures value == old(value)[..old(selStart)] + "/" + old(value)[old(selEnd)..]
      ensures selStart == selEnd == old(selStart) + 1
      ensures title == old(title) && status == old(status) && counts == old(counts)
      ensures slashOpen == old(slashOpen) && slashFilter == old(slashFilter)
    {
      value := value[..selStart] + "/" + value[selEnd..];
      selStart := selStart + 1;
      selEnd := selStart;
    }

    /** The keydown handler's reaction to "/" in the focused textarea: a
        closed menu opens with an empty filter, so every command is listed;
        an open menu stays as it is. The document is left to `TypeSlash`. */
    method OpenSlashMenu()
      requires Valid()
      modifies this
      ensures Valid()
      ensures slashOpen
      ensures !old(slashOpen) ==> slashFilter == [] && FilteredSlashCommands() == SLASH_COMMANDS
      ensures old(slashOpen) ==> slashFilter == old(slashFilter)
      ensures value == old(value) && selStart == old(selStart) && selEnd == old(selEnd)
      ensures title == old(title) && status == old(status) && counts == old(counts)
    {
      if !slashOpen {
        slashOpen := true;
        slashFilter := [];
      }
    }

    /** Escape, or a mouse press outside the menu, closes it. */
    method CloseSlashMenu()
      requires Valid()
      modifies this
      ensures Valid()
      ensures !slashOpen
      ensures value == old(value) && selStart == old(selStart) && selEnd == old(selEnd)
      ensures title == old(title) && status == old(status)
      ensures slashFilter == old(slashFilter) && counts == old(counts)
    {
      slashOpen := false;
    }

    /** The file reader's load handler of `onUpload`: the file's text becomes
        the document and the title is the file name without its extension.
        The textarea moves its selection to the end of the new text. */
    method LoadFile(fileName: string, content: string)
      requires Valid()
      modifies this
      ensures Valid()
      ensures value == content && title == StripExtension(fileName)
      ensures selStart == |content| && selEnd == |content|
      ensures status == old(status) && slashOpen == old(slashOpen)
      ensures slashFilter == old(slashFilter) && counts == old(counts)
    {
      value := content;
      title := StripExtension(fileName);
      selStart, selEnd := |content|, |content|;
    }

    /** The effect that runs after every change of the text: once the local
        storage writes succeed (`storageOk`), `updateWordCount(value)` and
        the status back to saved; when a write throws, neither happens. */
    method AfterChange(storageOk: bool)
      requires Valid()
      modifies this
      ensures Valid()
      ensures storageOk ==> counts == WordCount(old(value)) && status == SAVED
      ensures !storageOk ==> counts == old(counts) && status == old(status)
      ensures value == old(value) && selStart == old(selStart) && selEnd == old(selEnd)
      ensures title == old(title) && slashOpen == old(slashOpen) && slashFilter == old(slashFilter)
    {
      if storageOk {
        counts, status := WordCount(value), SAVED;
      }
    }
  }
}

=== FILE: rewrite.dfy ===
/**
  * The `/api/rewrite` endpoint of the InkPersona backend
  * (backend/app/main.py): when the OpenAI client is not enabled, or its call
  * raises, the text is rewritten by a fixed local pipeline — strip, collapse
  * runs of spaces, make sure the text ends in sentence punctuation, replace
  * six colloquial phrases, and append a note that quotes the instruction.
  */
module Rewrite {
  import opened Text

  const DEFAULT_INSTRUCTION: string := "请在保持意思不变的前提下，提高这段文字的清晰度与说服力，并修复错别字。"

  datatype Request = Request(text: string, instruction: string)

  datatype Response = Response(result: string, provider: string)

  /** What the endpoint sends back: a validated response, or a server error
      when the handler's return value fails validation against the response
      model. */
  datatype Reply = Ok(response: Response) | ServerError

  /** What the OpenAI chat-completion call did, when it was made: it raised
      an exception, or it returned a message whose content is a text or
      `None`. */
  datatype RemoteCall = Raised | Returned(content: Option<string>)

  /** `RewriteReq`: the text as sent, and the instruction as sent or, when the
      client sends none, the default instruction. */
  function NewRequest(text: string, instruction: Option<string>): (req: Request)
    ensures req.text == text
    ensures instruction.Some? ==> req.instruction == instruction.value
    ensures instruction.None? ==> req.instruction == DEFAULT_INSTRUCTION
  {
    Request(text, if instruction.Some? then instruction.value else DEFAULT_INSTRUCTION)
  }

  /** `USE_OPENAI`, fixed at start-up: enabled exactly when an API key is set
      to a non-empty value and the client could be created. */
  function UseOpenAI(apiKey: Option<string>, clientCreated: bool): (enabled: bool)
    ensures enabled <==> apiKey.Some? && apiKey.value != [] && clientCreated
  {
    match apiKey
    case None => false
    case Some(key) => key != [] && clientCreated
  }

  // ---------------------------------------------------------------------------
  // Step 1: strip.
  // ---------------------------------------------------------------------------

  /** The characters Python's `str.isspace` accepts, which `str.strip()`
      removes. */
  predicate IsPySpace(c: char)
  {
    ('\t' <= c <= '\r') || ('\U{001C}' <= c <= ' ') || c == '\U{0085}' || c == '\U{00A0}' ||
    c == '\U{1680}' || ('\U{2000}' <= c <= '\U{200A}') || c == '\U{2028}' || c == '\U{2029}' ||
    c == '\U{202F}' || c == '\U{205F}' || c == '\U{3000}'
  }

  /** `str.strip()`: the slice of `s` left after cutting Python whitespace
      from both ends; empty exactly when `s` is all whitespace, and
      otherwise bounded by non-whitespace. */
  function Strip(s: string): (r: string)
    ensures r == [] <==> forall i :: 0 <= i < |s| ==> IsPySpace(s[i])
    ensures r != [] ==> !IsPySpace(r[0]) && !IsPySpace(r[|r| - 1])
    ensures CutsOnly(s, |s| - |TrimStart(s, IsPySpace)|, r, IsPySpace)
  {
    Trim(s, IsPySpace)
  }

  // ---------------------------------------------------------------------------
  // Step 2: `re.sub(r"[ ]{2,}", " ", text)`.
  // ---------------------------------------------------------------------------

  predicate IsBlank(c: char)
  {
    c == ' '
  }

  /** No two neighbouring ASCII spaces. */
  predicate NoDoubleSpace(s: string)
  {
    forall i :: 0 <= i < |s| - 1 ==> !(s[i] == ' ' && s[i + 1] == ' ')
  }

  /** Every run of two or more ASCII spaces becomes one space; single spaces,
      tabs and all other characters stay. */
  function CollapseSpaces(s: string): (r: string)
    ensures NoDoubleSpace(r)
    ensures r == [] <==> s == []
    ensures r != [] ==> (r[0] == ' ' <==> s[0] == ' ')
    decreases |s|
  {
    if |s| >= 2 && s[0] == ' ' && s[1] == ' ' then
      var rest := TrimStart(s, IsBlank);
      assert rest != s;
      var r := " " + CollapseSpaces(rest);
      assert NoDoubleSpace(r) by {
        NoDoubleSpaceConcat(" ", CollapseSpaces(rest));
      }
      r
    else if s == [] then []
    else
      var r := [s[0]] + CollapseSpaces(s[1..]);
      assert NoDoubleSpace(r) by {
        NoDoubleSpaceConcat([s[0]], CollapseSpaces(s[1..]));
      }
      r
  }

  lemma {:induction false} NoDoubleSpaceConcat(a: string, b: string)
    requires NoDoubleSpace(a) && NoDoubleSpace(b)
    requires a == [] || b == [] || a[|a| - 1] != ' ' || b[0] != ' '
    ensures NoDoubleSpace(a + b)
  {
    var ab := a + b;
    forall i | 0 <= i < |ab| - 1 ensures !(ab[i] == ' ' && ab[i + 1] == ' ') {
      if i < |a| - 1 {
        assert ab[i] == a[i] && ab[i + 1] == a[i + 1];
      } else if i >= |a| {
        assert ab[i] == b[i - |a|] && ab[i + 1] == b[i - |a| + 1];
      }
    }
  }

  /** A text is left as it is by the collapse exactly when it has no double
      space. */
  lemma {:induction false} CollapseFixedPoint(s: string)
    ensures CollapseSpaces(s) == s <==> NoDoubleSpace(s)
    decreases |s|
  {
    if NoDoubleSpace(s) && s != [] {
      assert NoDoubleSpace(s[1..]) by {
        forall i | 0 <= i < |s[1..]| - 1 ensures !(s[1..][i] == ' ' && s[1..][i + 1] == ' ') {
          assert s[1..][i] == s[i + 1] && s[1..][i + 1] == s[i + 2];
        }
      }
      CollapseFixedPoint(s[1..]);
      assert s == [s[0]] + s[1..];
    }
  }

  /** Collapsing twice is the same as collapsing once. */
  lemma {:induction false} CollapseIdempotent(s: string)
    ensures CollapseSpaces(CollapseSpaces(s)) == CollapseSpaces(s)
  {
    CollapseFixedPoint(CollapseSpaces(s));
  }

  /** An independent description of the collapse: every space that is
      directly followed by another space is dropped, so each run of spaces
      keeps exactly one. */
  function Squeeze(s: string): string
  {
    if s == [] then []
    else if |s| >= 2 && s[0] == ' ' && s[1] == ' ' then Squeeze(s[1..])
    else [s[0]] + Squeeze(s[1..])
  }

  /** On a text starting with a space, squeezing keeps one space for the
      whole leading run. */
  lemma {:induction false} SqueezeRun(s: string)
    requires s != [] && s[0] == ' '
    ensures Squeeze(s) == " " + Squeeze(TrimStart(s, IsBlank))
    decreases |s|
  {
    if |s| >= 2 && s[1] == ' ' {
      SqueezeRun(s[1..]);
    } else {
      assert TrimStart(s[1..], IsBlank) == s[1..];
    }
  }

  /** The collapse replaces each run of two or more spaces by exactly one
      space and changes nothing else: it agrees with `Squeeze`. */
  lemma {:induction false} CollapseIsSqueeze(s: string)
    ensures CollapseSpaces(s) == Squeeze(s)
    decreases |s|
  {
    if |s| >= 2 && s[0] == ' ' && s[1] == ' ' {
      var rest := TrimStart(s, IsBlank);
      assert rest != s;
      CollapseIsSqueeze(rest);
      SqueezeRun(s);
    } else if s != [] {
      CollapseIsSqueeze(s[1..]);
    }
  }

  /** `s` with every ASCII space removed. */
  function WithoutSpaces(s: string): string
  {
    if s == [] then [] else (if s[0] == ' ' then [] else [s[0]]) + WithoutSpaces(s[1..])
  }

  lemma {:induction false} WithoutSpacesOfRun(s: string)
    ensures WithoutSpaces(TrimStart(s, IsBlank)) == WithoutSpaces(s)
  {
    if s != [] && s[0] == ' ' {
      WithoutSpacesOfRun(s[1..]);
    }
  }

  /** The collapse touches nothing but ASCII spaces: the other characters,
      tabs and line breaks included, keep their order and number. */
  lemma {:induction false} CollapseKeepsOtherCharacters(s: string)
    ensures WithoutSpaces(CollapseSpaces(s)) == WithoutSpaces(s)
    decreases |s|
  {
    if |s| >= 2 && s[0] == ' ' && s[1] == ' ' {
      var rest := TrimStart(s, IsBlank);
      CollapseKeepsOtherCharacters(rest);
      WithoutSpacesOfRun(s);
      assert (" " + CollapseSpaces(rest))[1..] == CollapseSpaces(rest);
    } else if s != [] {
      CollapseKeepsOtherCharacters(s[1..]);
      assert ([s[0]] + CollapseSpaces(s[1..]))[1..] == CollapseSpaces(s[1..]);
    }
  }

  // ---------------------------------------------------------------------------
  // Step 3: terminal punctuation.
  // ---------------------------------------------------------------------------

  const TERMINALS: string := "。！？.!?"

  /** A non-empty text that does not already end in `。！？.!?` gets a `。`;
      the empty text stays empty. */
  function EnsureTerminal(s: string): (r: string)
    ensures s == [] ==> r == []
    ensures s != [] ==> r != [] && r[|r| - 1] in TERMINALS
    ensures |s| <= |r| <= |s| + 1 && r[..|s|] == s
    ensures s != [] && s[|s| - 1] in TERMINALS ==> r == s
    ensures |r| == |s| + 1 ==> r[|s|] == '。'
    ensures NoDoubleSpace(s) ==> NoDoubleSpace(r)
  {
    if s != [] && s[|s| - 1] !in TERMINALS then
      var r := s + "。";
      assert r[..|s|] == s;
      assert NoDoubleSpace(s) ==> NoDoubleSpace(r) by {
        if NoDoubleSpace(s) { NoDoubleSpaceConcat(s, "。"); }
      }
      r
    else s
  }

  // ---------------------------------------------------------------------------
  // Step 4: phrase replacements.
  // ---------------------------------------------------------------------------

  /** Python's `s.replace(key, val)` for a non-empty key: occurrences are
      found left to right and do not overlap. */
  function ReplaceAll(s: string, key: string, val: string): (r: string)
    requires key != []
    ensures !Contains(s, key) ==> r == s
    decreases |s|
  {
    if |s| < |key| then s
    else if s[..|key|] == key then val + ReplaceAll(s[|key|..], key, val)
    else [s[0]] + ReplaceAll(s[1..], key, val)
  }

  lemma {:induction false} ReplaceAllAtMatch(s: string, key: string, val: string)
    requires key != [] && |key| <= |s| && s[..|key|] == key
    ensures ReplaceAll(s, key, val) == val + ReplaceAll(s[|key|..], key, val)
  {
  }

  lemma {:induction false} ReplaceAllPastStart(s: string, key: string, val: string)
    requires key != [] && s != [] && !StartsWith(s, key)
    ensures ReplaceAll(s, key, val) == [s[0]] + ReplaceAll(s[1..], key, val)
  {
  }

  /** Left to right and without overlap: when the first occurrence of the key
      starts right after `a`, the result is `a`, the value, and the
      replacement applied to what follows that occurrence. */
  lemma {:induction false} ReplaceAllFirstOccurrence(a: string, key: string, b: string, val: string)
    requires key != []
    requires forall i :: 0 <= i < |a| ==> !OccursAt(a + key + b, key, i)
    ensures ReplaceAll(a + key + b, key, val) == a + val + ReplaceAll(b, key, val)
    decreases |a|
  {
    var s := a + key + b;
    if a == [] {
      assert s[..|key|] == key && s[|key|..] == b;
      ReplaceAllAtMatch(s, key, val);
    } else {
      var a' := a[1..];
      assert !OccursAt(s, key, 0);
      assert s[0..|key|] == s[..|key|];
      ReplaceAllPastStart(s, key, val);
      assert s[1..] == a' + key + b;
      forall i | 0 <= i < |a'| ensures !OccursAt(a' + key + b, key, i) {
        OccursAtTail(s, key, i);
      }
      ReplaceAllFirstOccurrence(a', key, b, val);
      assert [s[0]] + (a' + val + ReplaceAll(b, key, val)) == a + val + ReplaceAll(b, key, val);
    }
  }

  /** A last character that occurs nowhere in the key cannot be part of a
      match, so it stays last. */
  lemma {:induction false} ReplaceAllKeepsLast(s: string, key: string, val: string)
    requires key != [] && s != [] && s[|s| - 1] !in key
    ensures var r := ReplaceAll(s, key, val); r != [] && r[|r| - 1] == s[|s| - 1]
    decreases |s|
  {
    if |s| < |key| {
    } else if s[..|key|] == key {
      MatchIsNotLast(s, key);
      var rest := s[|key|..];
      assert rest[|rest| - 1] == s[|s| - 1];
      ReplaceAllKeepsLast(rest, key, val);
      KeepsLastAfterMatch(s, key, val);
    } else {
      var rest := s[1..];
      if rest == [] {
        ReplaceAllPastStart(s, key, val);
        assert ReplaceAll(rest, key, val) == [];
      } else {
        assert rest[|rest| - 1] == s[|s| - 1];
        ReplaceAllKeepsLast(rest, key, val);
        KeepsLastAfterOther(s, key, val);
      }
    }
  }

  /** The step of `ReplaceAllKeepsLast` past a match at the front. */
  lemma {:induction false} KeepsLastAfterMatch(s: string, key: string, val: string)
    requires key != [] && |key| < |s| && s[..|key|] == key
    requires var r := ReplaceAll(s[|key|..], key, val); r != [] && r[|r| - 1] == s[|s| - 1]
    ensures var r := ReplaceAll(s, key, val); r != [] && r[|r| - 1] == s[|s| - 1]
  {
    ReplaceAllAtMatch(s, key, val);
    LastOfAppend(val, ReplaceAll(s[|key|..], key, val));
  }

  /** The step of `ReplaceAllKeepsLast` past a first character that starts
      no match. */
  lemma {:induction false} KeepsLastAfterOther(s: string, key: string, val: string)
    requires key != [] && |s| > 1 && !StartsWith(s, key)
    requires var r := ReplaceAll(s[1..], key, val); r != [] && r[|r| - 1] == s[|s| - 1]
    ensures var r := ReplaceAll(s, key, val); r != [] && r[|r| - 1] == s[|s| - 1]
  {
    ReplaceAllPastStart(s, key, val);
    LastOfAppend([s[0]], ReplaceAll(s[1..], key, val));
  }

  /** A match at the front of `s` cannot reach its last character when that
      character is not in the key. */
  lemma {:induction false} MatchIsNotLast(s: string, key: string)
    requires key != [] && |key| <= |s| && s[..|key|] == key && s[|s| - 1] !in key
    ensures |key| < |s|
  {
    assert s[|key| - 1] == key[|key| - 1];
    assert key[|key| - 1] in key;
  }

  lemma {:induction false} LastOfAppend(a: string, b: string)
    requires b != []
    ensures (a + b)[|a + b| - 1] == b[|b| - 1]
  {
  }

  /** A replacement that is non-empty and holds no space never starts with a
      space, so a result starting with a space comes from a text starting
      with one. */
  lemma {:induction false} ReplaceAllFirst(s: string, key: string, val: string)
    requires key != [] && val != [] && ' ' !in val
    ensures var r := ReplaceAll(s, key, val); r != [] && r[0] == ' ' ==> s != [] && s[0] == ' '
  {
    if |s| >= |key| && s[..|key|] == key {
      assert val[0] in val;
    }
  }

  /** Replacing with a non-empty, space-free value creates no double
      space. */
  lemma {:induction false} ReplaceAllNoDoubleSpace(s: string, key: string, val: string)
    requires key != [] && val != [] && ' ' !in val
    requires NoDoubleSpace(s)
    ensures NoDoubleSpace(ReplaceAll(s, key, val))
    decreases |s|
  {
    assert NoDoubleSpace(val) by {
      forall i | 0 <= i < |val| - 1 ensures val[i] != ' ' { assert val[i] in val; }
    }
    if |s| < |key| {
    } else if s[..|key|] == key {
      var rest := s[|key|..];
      assert NoDoubleSpace(rest) by {
        forall i | 0 <= i < |rest| - 1 ensures !(rest[i] == ' ' && rest[i + 1] == ' ') {
          assert rest[i] == s[|key| + i] && rest[i + 1] == s[|key| + i + 1];
        }
      }
      ReplaceAllNoDoubleSpace(rest, key, val);
      assert val[|val| - 1] in val;
      NoDoubleSpaceConcat(val, ReplaceAll(rest, key, val));
    } else {
      var rest := s[1..];
      assert NoDoubleSpace(rest) by {
        forall i | 0 <= i < |rest| - 1 ensures !(rest[i] == ' ' && rest[i + 1] == ' ') {
          assert rest[i] == s[i + 1] && rest[i + 1] == s[i + 2];
        }
      }
      ReplaceAllNoDoubleSpace(rest, key, val);
      ReplaceAllFirst(rest, key, val);
      NoDoubleSpaceConcat([s[0]], ReplaceAll(rest, key, val));
    }
  }

  /** The colloquial phrases and their replacements, in dictionary order. */
  const REPLACES: seq<(string, string)> := [
    ("不是很", "不太"),
    ("有点", "略显"),
    ("感觉", "认为"),
    ("我觉得", "我认为"),
    ("其实", "事实上"),
    ("非常", "十分")
  ]

  predicate ValidPairs(pairs: seq<(string, string)>)
  {
    forall i :: 0 <= i < |pairs| ==> pairs[i].0 != []
  }

  /** The replacements applied one after another, each to the result of the
      previous one. */
  function ReplaceEach(s: string, pairs: seq<(string, string)>): string
    requires ValidPairs(pairs)
    decreases pairs
  {
    if pairs == [] then s
    else ReplaceEach(ReplaceAll(s, pairs[0].0, pairs[0].1), pairs[1..])
  }

  /** No key holds sentence punctuation, every value is non-empty and no
      value holds a space. */
  lemma ReplacesTable()
    ensures ValidPairs(REPLACES)
    ensures forall i, c :: 0 <= i < |REPLACES| && c in TERMINALS ==> c !in REPLACES[i].0
    ensures forall i :: 0 <= i < |REPLACES| ==> REPLACES[i].1 != [] && ' ' !in REPLACES[i].1
  {
  }

  lemma {:induction false} ReplaceEachKeepsLast(s: string, pairs: seq<(string, string)>)
    requires ValidPairs(pairs) && s != []
    requires forall i :: 0 <= i < |pairs| ==> s[|s| - 1] !in pairs[i].0
    ensures var r := ReplaceEach(s, pairs); r != [] && r[|r| - 1] == s[|s| - 1]
    decreases pairs
  {
    if pairs != [] {
      ReplaceAllKeepsLast(s, pairs[0].0, pairs[0].1);
      ReplaceEachKeepsLast(ReplaceAll(s, pairs[0].0, pairs[0].1), pairs[1..]);
    }
  }

  lemma {:induction false} ReplaceEachNoDoubleSpace(s: string, pairs: seq<(string, string)>)
    requires ValidPairs(pairs) && NoDoubleSpace(s)
    requires forall i :: 0 <= i < |pairs| ==> pairs[i].1 != [] && ' ' !in pairs[i].1
    ensures NoDoubleSpace(ReplaceEach(s, pairs))
    decreases pairs
  {
    if pairs != [] {
      ReplaceAllNoDoubleSpace(s, pairs[0].0, pairs[0].1);
      ReplaceEachNoDoubleSpace(ReplaceAll(s, pairs[0].0, pairs[0].1), pairs[1..]);
    }
  }

  lemma {:induction false} ReplaceEachEmpty(pairs: seq<(string, string)>)
    requires ValidPairs(pairs)
    ensures ReplaceEach([], pairs) == []
  {
    if pairs != [] {
      ReplaceEachEmpty(pairs[1..]);
    }
  }

  // ---------------------------------------------------------------------------
  // The local pipeline.
  // ---------------------------------------------------------------------------

  /** The rewritten text before the note: empty exactly when the stripped
      input is empty, otherwise ending in sentence punctuation, and never
      holding a double space. */
  function LocalBody(text: string): (body: string)
    ensures body == [] <==> Strip(text) == []
    ensures body != [] ==> body[|body| - 1] in TERMINALS
    ensures NoDoubleSpace(body)
  {
    ReplacesTable();
    var ended := EnsureTerminal(CollapseSpaces(Strip(text)));
    if ended == [] then
      ReplaceEachEmpty(REPLACES);
      ReplaceEach(ended, REPLACES)
    else
      ReplaceEachKeepsLast(ended, REPLACES);
      ReplaceEachNoDoubleSpace(ended, REPLACES);
      ReplaceEach(ended, REPLACES)
  }

  lemma {:induction false} LocalBodySteps(text: string)
    ensures ValidPairs(REPLACES)
    ensures LocalBody(text) == ReplaceEach(EnsureTerminal(CollapseSpaces(Strip(text))), REPLACES)
  {
    ReplacesTable();
  }

  const NOTE_OPEN: string := "\\n\\n（按指令“"
  const NOTE_CLOSE: string := "”进行了本地规则级润色，仅供占位演示）"

  /** The note after the body. Python's `"\\n"` is a backslash followed by
      `n`, so the note starts with those four characters and holds no line
      break unless the instruction does; the instruction appears verbatim. */
  function Note(instruction: string): (note: string)
    ensures |note| == 9 + |instruction| + |NOTE_CLOSE|
    ensures note[..4] == ['\\', 'n', '\\', 'n']
    ensures note[9..9 + |instruction|] == instruction
    ensures '\n' !in instruction ==> '\n' !in note
  {
    var note := NOTE_OPEN + instruction + NOTE_CLOSE;
    assert note[9..9 + |instruction|] == instruction;
    assert '\n' !in instruction ==> '\n' !in note by {
      assert forall c :: c in note ==> c in NOTE_OPEN || c in instruction || c in NOTE_CLOSE;
    }
    note
  }

  /** The `for k, v in replaces.items()` loop: each pair rewrites the result
      of the previous one. */
  method ApplyReplacements(s: string, pairs: seq<(string, string)>) returns (text: string)
    requires ValidPairs(pairs)
    ensures text == ReplaceEach(s, pairs)
  {
    text := s;
    for i := 0 to |pairs|
      invariant ReplaceEach(text, pairs[i..]) == ReplaceEach(s, pairs)
    {
      assert pairs[i..][1..] == pairs[i + 1..];
      text := ReplaceAll(text, pairs[i].0, pairs[i].1);
    }
    assert pairs[|pairs|..] == [];
  }

  /** The local branch of `rewrite`, step by step as the handler runs it. */
  method LocalRewrite(req: Request) returns (resp: Response)
    ensures resp.provider == "local"
    ensures resp.result == LocalBody(req.text) + Note(req.instruction)
  {
    var text := Strip(req.text);
    text := CollapseSpaces(text);
    if text != [] && text[|text| - 1] !in TERMINALS {
      text := text + "。";
    }
    assert text == EnsureTerminal(CollapseSpaces(Strip(req.text)));
    LocalBodySteps(req.text);
    text := ApplyReplacements(text, REPLACES);
    resp := Response(text + Note(req.instruction), "local");
  }

  /** `rewrite`, from the fields of the request body: when the client is
      enabled and its call returns a text, that text with provider `openai`;
      when the call returns no content, the handler returns it anyway and
      the response fails validation, a server error; otherwise (client
      disabled, or the call raised) the local rewrite. */
  method HandleRewrite(text: string, instruction: Option<string>, apiKey: Option<string>,
                       clientCreated: bool, call: RemoteCall) returns (reply: Reply)
    ensures var enabled := UseOpenAI(apiKey, clientCreated);
      enabled && call.Returned? && call.content.Some? ==>
        reply == Ok(Response(call.content.value, "openai"))
    ensures var enabled := UseOpenAI(apiKey, clientCreated);
      enabled && call.Returned? && call.content.None? ==> reply == ServerError
    ensures var req := NewRequest(text, instruction);
      !UseOpenAI(apiKey, clientCreated) || call.Raised? ==>
        reply == Ok(Response(LocalBody(text) + Note(req.instruction), "local"))
  {
    var req := NewRequest(text, instruction);
    if UseOpenAI(apiKey, clientCreated) {
      match call
      case Returned(content) =>
        match content {
          case Some(result) => return Ok(Response(result, "openai"));
          case None => return ServerError;
        }
      case Raised =>
    }
    var resp := LocalRewrite(req);
    reply := Ok(resp);
  }
}

=== FILE: text.dfy ===
/**
  * String helpers shared by the editor model and the rewrite model:
  * counting and splitting on a separator character, joining, trimming by a
  * whitespace predicate, ASCII lower-casing, substring search and
  * last-index search. Strings are sequences of characters.
  */
module Text {

  datatype Option<+T> = None | Some(value: T)

  /** Number of occurrences of `c` in `s`. */
  function Count(s: string, c: char): nat
  {
    if s == [] then 0 else (if s[0] == c then 1 else 0) + Count(s[1..], c)
  }

  // ---------------------------------------------------------------------------
  // Splitting on a separator and joining with it (JavaScript's
  // `String.prototype.split(sep)` for a one-character separator and
  // `Array.prototype.join(sep)`).
  // ---------------------------------------------------------------------------

  /** The pieces of `s` between occurrences of `sep`; there is always one
      more piece than there are separators, and no piece holds a separator. */
  function Split(s: string, sep: char): (pieces: seq<string>)
    ensures |pieces| == Count(s, sep) + 1
    ensures forall i :: 0 <= i < |pieces| ==> sep !in pieces[i]
  {
    if s == [] then [[]]
    else
      var rest := Split(s[1..], sep);
      if s[0] == sep then [[]] + rest
      else [[s[0]] + rest[0]] + rest[1..]
  }

  /** The pieces concatenated with `sep` between neighbours. */
  function Join(parts: seq<string>, sep: char): string
  {
    if parts == [] then []
    else if |parts| == 1 then parts[0]
    else parts[0] + [sep] + Join(parts[1..], sep)
  }

  /** Joining the pieces of a split gives back the original string. */
  lemma {:induction false} JoinSplit(s: string, sep: char)
    ensures Join(Split(s, sep), sep) == s
  {
    if s != [] {
      var rest := Split(s[1..], sep);
      JoinSplit(s[1..], sep);
      if s[0] == sep {
        assert ([[]] + rest)[1..] == rest;
      } else if |rest| == 1 {
        assert s == [s[0]] + s[1..];
      } else {
        var parts := [[s[0]] + rest[0]] + rest[1..];
        assert parts[1..] == rest[1..];
        assert s == [s[0]] + s[1..];
      }
    }
  }

  lemma {:induction false} SplitWithoutSeparator(x: string, sep: char)
    requires sep !in x
    ensures Split(x, sep) == [x]
  {
    if x != [] {
      assert x == [x[0]] + x[1..];
      SplitWithoutSeparator(x[1..], sep);
    }
  }

  lemma {:induction false} SplitAtFirstSeparator(x: string, y: string, sep: char)
    requires sep !in x
    ensures Split(x + [sep] + y, sep) == [x] + Split(y, sep)
  {
    if x == [] {
      assert (x + [sep] + y)[1..] == y;
    } else {
      assert (x + [sep] + y)[1..] == x[1..] + [sep] + y;
      assert x == [x[0]] + x[1..];
      SplitAtFirstSeparator(x[1..], y, sep);
    }
  }

  /** Splitting a join gives back the parts, provided no part holds the
      separator. */
  lemma {:induction false} SplitJoin(parts: seq<string>, sep: char)
    requires parts != []
    requires forall i :: 0 <= i < |parts| ==> sep !in parts[i]
    ensures Split(Join(parts, sep), sep) == parts
  {
    if |parts| == 1 {
      SplitWithoutSeparator(parts[0], sep);
    } else {
      SplitJoin(parts[1..], sep);
      SplitAtFirstSeparator(parts[0], Join(parts[1..], sep), sep);
      assert parts == [parts[0]] + parts[1..];
    }
  }

  // ---------------------------------------------------------------------------
  // Trimming by a whitespace predicate.
  // ---------------------------------------------------------------------------

  /** `s` without its longest prefix of characters satisfying `ws`. */
  function TrimStart(s: string, ws: char -> bool): (r: string)
    ensures |r| <= |s| && r == s[|s| - |r|..]
    ensures forall i :: 0 <= i < |s| - |r| ==> ws(s[i])
    ensures r == [] || !ws(r[0])
  {
    if s != [] && ws(s[0]) then
      var r := TrimStart(s[1..], ws);
      assert s[1..][|s| - 1 - |r|..] == s[|s| - |r|..];
      assert forall i :: 1 <= i < |s| - |r| ==> s[i] == s[1..][i - 1];
      r
    else s
  }

  /** `s` without its longest suffix of characters satisfying `ws`. */
  function TrimEnd(s: string, ws: char -> bool): (r: string)
    ensures |r| <= |s| && r == s[..|r|]
    ensures forall i :: |r| <= i < |s| ==> ws(s[i])
    ensures r == [] || !ws(r[|r| - 1])
  {
    if s != [] && ws(s[|s| - 1]) then
      var r := TrimEnd(s[..|s| - 1], ws);
      assert s[..|s| - 1][..|r|] == s[..|r|];
      assert forall i :: |r| <= i < |s| - 1 ==> s[i] == s[..|s| - 1][i];
      r
    else s
  }

  /** `r` is the slice of `s` that starts at `d`, and every character cut
      off before or after it satisfies `ws`. */
  predicate CutsOnly(s: string, d: nat, r: string, ws: char -> bool)
  {
    d + |r| <= |s| && (forall k :: 0 <= k < |r| ==> r[k] == s[d + k]) &&
    (forall k :: 0 <= k < d ==> ws(s[k])) &&
    (forall k :: d + |r| <= k < |s| ==> ws(s[k]))
  }

  /** What trimming both ends of `s` yields, from what trimming each end
      guarantees: `t` is `s` after its leading run, `r` is `t` before its
      trailing run. */
  lemma TrimBoth(s: string, t: string, r: string, ws: char -> bool)
    requires |t| <= |s| && t == s[|s| - |t|..]
    requires forall i :: 0 <= i < |s| - |t| ==> ws(s[i])
    requires t == [] || !ws(t[0])
    requires |r| <= |t| && r == t[..|r|]
    requires forall i :: |r| <= i < |t| ==> ws(t[i])
    requires r == [] || !ws(r[|r| - 1])
    ensures r == [] <==> forall i :: 0 <= i < |s| ==> ws(s[i])
    ensures r != [] ==> !ws(r[0]) && !ws(r[|r| - 1])
    ensures CutsOnly(s, |s| - |t|, r, ws)
  {
    var d := |s| - |t|;
    assert forall k :: d <= k < |s| ==> s[k] == t[k - d];
    assert r == [] ==> t == [];
    assert r != [] ==> !ws(r[0]) && t != [] && !ws(s[d]) by {
      if r != [] {
        assert r[0] == t[0] && t[0] == s[d];
      }
    }
  }

  /** `s` without leading and trailing whitespace: empty exactly when every
      character of `s` is whitespace, and otherwise bounded by
      non-whitespace characters. The result is the slice of `s` that starts
      after the leading whitespace, and everything cut off on either side
      is whitespace. */
  function Trim(s: string, ws: char -> bool): (r: string)
    ensures r == [] <==> forall i :: 0 <= i < |s| ==> ws(s[i])
    ensures r != [] ==> !ws(r[0]) && !ws(r[|r| - 1])
    ensures |r| <= |s|
    ensures CutsOnly(s, |s| - |TrimStart(s, ws)|, r, ws)
  {
    var t := TrimStart(s, ws);
    var r := TrimEnd(t, ws);
    TrimBoth(s, t, r, ws);
    r
  }

  // ---------------------------------------------------------------------------
  // Lower-casing, substring search, last-index search.
  // ---------------------------------------------------------------------------

  /** ASCII lower-casing of one character; every other character is kept. */
  function LowerChar(c: char): char
  {
    if 'A' <= c <= 'Z' then (c as int + 32) as char else c
  }

  function Lower(s: string): (r: string)
    ensures |r| == |s|
    ensures forall i :: 0 <= i < |s| ==> r[i] == LowerChar(s[i])
  {
    if s == [] then [] else [LowerChar(s[0])] + Lower(s[1..])
  }

  /** Lower-casing a lower-cased text changes nothing. */
  lemma LowerIdempotent(s: string)
    ensures Lower(Lower(s)) == Lower(s)
  {
    var l := Lower(s);
    forall i | 0 <= i < |s| ensures Lower(l)[i] == l[i] {
      assert l[i] == LowerChar(s[i]);
    }
  }

  lemma {:induction false} LowerSlice(s: string, i: nat, j: nat)
    requires i <= j <= |s|
    ensures Lower(s[i..j]) == Lower(s)[i..j]
  {
    var lhs, rhs := Lower(s[i..j]), Lower(s)[i..j];
    assert |lhs| == j - i == |rhs|;
    forall k | 0 <= k < j - i ensures lhs[k] == rhs[k] {
      calc {
        lhs[k];
        LowerChar(s[i..j][k]);
        { assert s[i..j][k] == s[i + k]; }
        LowerChar(s[i + k]);
        Lower(s)[i + k];
      }
    }
  }

  predicate StartsWith(s: string, prefix: string)
  {
    |prefix| <= |s| && s[..|prefix|] == prefix
  }

  /** `needle` occurs in `hay` starting at index `i`. */
  predicate OccursAt(hay: string, needle: string, i: int)
  {
    0 <= i && i + |needle| <= |hay| && hay[i..i + |needle|] == needle
  }

  lemma {:induction false} OccursAtTail(hay: string, needle: string, i: nat)
    requires hay != []
    ensures OccursAt(hay[1..], needle, i) <==> OccursAt(hay, needle, i + 1)
  {
    if i + 1 + |needle| <= |hay| {
      assert hay[1..][i..i + |needle|] == hay[i + 1..i + 1 + |needle|];
    }
  }

  /** Whether `needle` occurs in `hay` (JavaScript's `includes`). */
  predicate Contains(hay: string, needle: string)
  {
    StartsWith(hay, needle) || (hay != [] && Contains(hay[1..], needle))
  }

  /** The recursive search agrees with "there is a position where `needle`
      starts", in both directions. */
  lemma {:induction false} ContainsAt(hay: string, needle: string)
    ensures Contains(hay, needle) <==> exists i :: OccursAt(hay, needle, i)
  {
    if StartsWith(hay, needle) {
      assert OccursAt(hay, needle, 0);
    } else if hay == [] {
    } else {
      ContainsAt(hay[1..], needle);
      if exists i :: OccursAt(hay, needle, i) {
        var i :| OccursAt(hay, needle, i);
        assert i != 0;
        assert hay[1..][i - 1..i - 1 + |needle|] == hay[i..i + |needle|];
        assert OccursAt(hay[1..], needle, i - 1);
      }
      if Contains(hay[1..], needle) {
        var j :| OccursAt(hay[1..], needle, j);
        assert hay[j + 1..j + 1 + |needle|] == hay[1..][j..j + |needle|];
        assert OccursAt(hay, needle, j + 1);
      }
    }
  }

  /** The index of the last `c` in `s`, or -1 when there is none
      (JavaScript's `lastIndexOf` for a one-character argument). */
  function LastIndexOf(s: string, c: char): (r: int)
    ensures -1 <= r < |s|
    ensures r == -1 <==> c !in s
    ensures r >= 0 ==> s[r] == c && forall j :: r < j < |s| ==> s[j] != c
  {
    if s == [] then -1
    else if s[|s| - 1] == c then |s| - 1
    else
      var init := s[..|s| - 1];
      var r := LastIndexOf(init, c);
      assert forall j :: 0 <= j < |init| ==> s[j] == init[j];
      assert s == init + [s[|s| - 1]];
      r
  }
}
